=== FILE: README.md ===
# Meme-coin persistence layer in Dafny

This project models the persistence layer of the meme-coin REST service. That layer is a cache-aside
repository (`CachedCoinRepository`) over two backends: a MySQL table of coins behind gorm
(`GormCoinDAO`) and a Redis cache of coins (`RedisCoinCache`).

- `errors.dfy`: the error values. The sentinels `ErrDuplicateName`, `ErrRecordNotFound`
  (which the repository re-exports as `ErrNotFound`) and `redis.Nil` are distinct constructors. Every
  other backend error is an opaque `Backend(reason)` that is only ever passed on.
- `domain.dfy`: `domain.Coin`. The instants are Unix milliseconds and the score is a `uint32`.
- `decimal.dfy`: the `%d` rendering of an integer and a parser that undoes it. The round trip makes
  the rendering, and so the cache key, injective.
- `cache.dfy`: the keyspace is a `map<string, Entry>`. `Key(id)` is `"coin:"` followed by the id in
  decimal. `Set` stores the coin with the fixed 15-minute expiration. `Get` answers `KeyNotExist` when
  there is no live entry. `Del` of an absent key is not an error. A client failure is a parameter
  `fault` and is returned unchanged.
- `dao.dfy`: the table is a `map<int, Row>` plus the auto-increment counter.
  - `Valid()` (the predicate `WellFormed` on the rows and the counter) says that every row sits
    under its own id, below the counter. It also says that names
    are unique and that a NULL description reads back as `""`.
  - Name uniqueness is an assumption about the table. The mapping of MySQL error 1062 to
    `ErrDuplicateName` (internal/repository/dao/coin.go:44-48) and the duplicate-name test
    (internal/repository/dao/coin_test.go:48-58) rely on it. The code that creates the table is not
    part of this model.
  - `Insert` stamps both timestamps with the same `now`. A name collision, or a collision with an
    explicitly given id, is a unique-key violation, which the code reports as `ErrDuplicateName`. A
    failed insert on the counter's path still uses up the id it drew.
  - `UpdateById` changes only the description and `updated_at`. It matches nothing, without error,
    when the id is missing.
  - `IncrPopularityScore` adds exactly one and refreshes `updated_at`. It reports
    `ErrRecordNotFound` when no row is affected.
  - `DeleteById` of a missing id is not an error.
- `repository.dfy`: `ToEntity` and `ToDomain`, the coherence invariant `Coherent` with its
  preservation lemmas, and the class with the five operations. Each background goroutine runs as a
  synchronous step whose outcome is the parameter `bgFault`. Its error is discarded.
  - Each operation states its result and its new state for every combination of cache, table and
    background outcomes.
  - Each operation also states that, if the background step succeeds, it keeps the cache coherent
    with the table. `FindById` keeps it whatever the background step does.
  - Under coherence, `FindById` answers exactly what the table holds, whatever the cache does.
- `scenario.dfy`: a client running a sample coin life cycle. It creates "doge", pokes it three times,
  reads it through an empty cache, updates it and reads it again. Every answer is derived from the
  contracts alone.

Time is an integer `now` in milliseconds, passed to every operation that reads the clock. A cache
entry is live while `now` is at or below its expiry instant, since Redis drops a key only once its clock
is past that instant.

Three behaviours of the code are worth stating:

- `DeleteById` of a missing id returns nil (internal/repository/dao/coin.go:68-70). Of the three
  mutations, only the increment reports a missing row (internal/repository/dao/coin.go:78-80).
- Every MySQL 1062 error becomes `ErrDuplicateName` (internal/repository/dao/coin.go:44-48). That
  includes an insert with an explicit id that is already taken.
- The popularity score is a Go `uint32` (internal/repository/dao/coin.go:90). The model assumes the
  column has the same range, so the database refuses an increment at 4294967295 in strict mode. The
  model reports this as an opaque backend failure that leaves the table unchanged.

## Model

| member | source | states |
|---|---|---|
| `Decimal.NatToString` | internal/repository/cache/coin.go:34 | the rendering of a natural number is a non-empty string of digits with no leading zero |
| `Decimal.IntToString` | internal/repository/cache/coin.go:34 | `%d` of an integer: a leading minus exactly for negatives, digits otherwise |
| `Decimal.ParseNatToString` | internal/repository/cache/coin.go:33-35 | parsing the digits of n gives back n |
| `Decimal.ParseIntToString` | internal/repository/cache/coin.go:33-35 | parsing the `%d` rendering of any integer gives it back |
| `Decimal.IntToStringInjective` | internal/repository/cache/coin.go:33-35 | two integers have the same rendering iff they are equal |
| `Cache.Key` | internal/repository/cache/coin.go:33-35 | the key is `"coin:"` followed by the decimal id, and the id can be parsed back from it |
| `Cache.KeyInjective` | internal/repository/cache/coin.go:33-35 | two ids share a key iff they are equal |
| `Cache.Lookup` | internal/repository/cache/coin.go:45-56 | a fault-free read either fails with `KeyNotExist` or returns the coin stored under the id's key |
| `Cache.LookupAfterSet` | internal/repository/cache/coin.go:37-56 | a coin set at `now` reads back unchanged up to and including `now` + 15 min and as `KeyNotExist` after that |
| `Cache.LookupAfterSetOther` | internal/repository/cache/coin.go:33-43 | setting one coin does not change what any other id reads |
| `Cache.LookupAfterDel` | internal/repository/cache/coin.go:58-60 | after a delete the id reads as `KeyNotExist` |
| `Cache.LookupAfterDelOther` | internal/repository/cache/coin.go:58-60 | deleting one id does not change what any other id reads |
| `Cache.RedisCoinCache.constructor` | internal/repository/cache/coin.go:26-31 | the cache wraps the client's keyspace with the fixed 15-minute expiration |
| `Cache.RedisCoinCache.Set` | internal/repository/cache/coin.go:37-43 | stores the coin under `Key(coin.id)` expiring `expiration` after `now`; a client error is returned unchanged and stores nothing |
| `Cache.RedisCoinCache.Get` | internal/repository/cache/coin.go:45-56 | returns the live entry's coin, `KeyNotExist` when there is none, or the client's error unchanged |
| `Cache.RedisCoinCache.Del` | internal/repository/cache/coin.go:58-60 | removes the id's key, succeeding when it is absent; a client error is returned unchanged and removes nothing |
| `Dao.Normalize` | internal/repository/dao/coin.go:87 | a NULL description is stored with an empty string; a non-NULL one as given |
| `Dao.InsertError` | internal/repository/dao/coin.go:39-51 | an insert fails iff the client fails, the given non-zero id is taken, or the name is taken; the latter two are `ErrDuplicateName` |
| `Dao.UpdatedRows` | internal/repository/dao/coin.go:54-60 | an update keeps the set of ids and every other row; on the matching row it sets the description and `updated_at` and keeps id, name, `created_at` and score |
| `Dao.IncrError` | internal/repository/dao/coin.go:72-82 | an increment fails iff the client fails, no row matches (`ErrRecordNotFound`), or the score is at the `uint32` maximum; a client error is returned unchanged |
| `Dao.IncrementedRows` | internal/repository/dao/coin.go:72-82 | an increment adds exactly 1 to the row's score, sets `updated_at`, and changes no other field and no other row |
| `Dao.CounterAfterInsert` | internal/repository/dao/coin.go:39-51 | after a successful insert the auto-increment counter never goes back and is past every id assigned or given, so the counter never assigns an id that was used before |
| `Dao.GormCoinDao.constructor` | internal/repository/dao/coin.go:32-37 | the DAO wraps a well-formed table |
| `Dao.GormCoinDao.Insert` | internal/repository/dao/coin.go:39-51 | both timestamps are `now`; the id is the counter's (positive) or the given one, and fresh; the row is added and nothing else changes; the counter moves past the assigned id, or past a given id at or above it (`CounterAfterInsert`); on error the exact error is returned, the rows are unchanged and the counter never goes back (a duplicate on the counter's path uses up one id) |
| `Dao.GormCoinDao.UpdateById` | internal/repository/dao/coin.go:54-60 | the table becomes `UpdatedRows`, a missing id included, or the client's error is returned with the table unchanged |
| `Dao.GormCoinDao.FindById` | internal/repository/dao/coin.go:62-66 | returns the row with that id (whose id is that id), `ErrRecordNotFound`, or the client's error |
| `Dao.GormCoinDao.DeleteById` | internal/repository/dao/coin.go:68-70 | removes the row; a missing id is not an error; a client error leaves the table unchanged |
| `Dao.GormCoinDao.IncrPopularityScore` | internal/repository/dao/coin.go:72-82 | returns `IncrError`; on success the table becomes `IncrementedRows`, otherwise it is unchanged |
| `Repository.SentinelAliases` | internal/repository/coin.go:13-16 | `ErrNotFound` is the table's `RecordNotFound` and `ErrDuplicateName` its `DuplicateName`; the two differ from each other and from a cache miss; an increment of a missing id returns `ErrNotFound` and an insert of a taken name `ErrDuplicateName` |
| `Repository.ToEntity` | internal/repository/coin.go:132-138 | copies id, name and description only; the description is NULL iff it is empty |
| `Repository.ToDomain` | internal/repository/coin.go:140-149 | copies every field, keeping millisecond timestamps; NULL becomes "" |
| `Repository.DomainEntityRoundTrip` | internal/repository/coin.go:132-149 | `ToDomain(ToEntity(c))` keeps id, name and description and zeroes the rest |
| `Repository.EntityDomainRoundTrip` | internal/repository/coin.go:132-149 | `ToEntity(ToDomain(r))` keeps a stored description iff NULL and non-empty coincide |
| `Repository.CoherentHit` | internal/repository/coin.go:67-72 | under coherence, a live cache entry equals the domain view of the table row |
| `Repository.CoherentAfterInsert` | internal/repository/coin.go:41-47 | a new row needs no cache action to keep the cache coherent |
| `Repository.CoherentAfterInvalidate` | internal/repository/coin.go:49-65 | changing or removing one row and deleting its entry keeps the cache coherent |
| `Repository.CoherentAfterPopulate` | internal/repository/coin.go:80-91 | caching the domain view of a row under its id keeps the cache coherent |
| `Repository.StaleAfterFailedInvalidate` | internal/repository/coin.go:54-63 | when the delete after an update fails, the cache is no longer coherent |
| `Repository.CachedCoinRepository.constructor` | internal/repository/coin.go:33-39 | the repository holds the given valid DAO and cache, and is itself valid |
| `Repository.CachedCoinRepository.Create` | internal/repository/coin.go:41-47 | on success stores `ToEntity(coin)` (an empty description as NULL) under a fresh id with both timestamps `now` and returns its `ToDomain`: fresh id, given name and description, both timestamps `now`, score 0; the DAO's counter advances as `CounterAfterInsert` says; otherwise returns the DAO's exact error and the counter never goes back, and after a duplicate with no client fault it has advanced by exactly the one id drawn on the counter's path; the cache is untouched; coherence is kept |
| `Repository.CachedCoinRepository.Update` | internal/repository/coin.go:49-65 | a DAO error is returned with no cache action; on success returns nil and deletes the entry for `coin.id` when the background step succeeds, nil either way; coherence is kept when it succeeds |
| `Repository.CachedCoinRepository.FindById` | internal/repository/coin.go:67-94 | a live entry is returned without regard to the table; any cache error falls through to the table; the row's domain view is returned and cached, or the DAO's error is returned with nothing cached; coherence is kept whatever the background step does; under coherence the answer is what the table holds |
| `Repository.CachedCoinRepository.DeleteById` | internal/repository/coin.go:96-112 | a DAO error is returned with no cache action; on success returns nil and deletes the entry when the background step succeeds; coherence is kept |
| `Repository.CachedCoinRepository.IncrPopularityScore` | internal/repository/coin.go:114-130 | returns the DAO's error, `ErrNotFound` for a missing id included, with no cache action; on success returns nil, the score has grown by one and the entry is deleted when the background step succeeds; coherence is kept |

## Left out

- Goroutines and the 100 ms background timeout (internal/repository/coin.go:54-63, 82-91, 101-110, 119-128). Each background task runs to completion before the call returns, with its outcome as the parameter `bgFault`. A task still in flight looks the same as a failed one. Interleavings with later calls are not modelled.
- Request contexts and cancellation: a cancelled call is one more opaque backend failure.
- Every table failure is modelled as having had no effect on the table. This assumption is what the coherence clauses of `Update`, `DeleteById` and `IncrPopularityScore` rely on in their error case. A deadline or a lost connection can be reported after MySQL has already applied the UPDATE, DELETE or increment. The code then returns the error and skips the cache delete (internal/repository/coin.go:50-53, 97-100, 115-118), so a live entry goes on serving the old coin until it expires. `Repository.StaleAfterFailedInvalidate` shows the result for an update whose entry is not deleted.
- Logging in the background closures and the logger itself: output only.
- gorm query building and the detection of MySQL error 1062. Both are modelled as a uniqueness check on the abstract table.
- `Dao.InsertError`: names are compared exactly. Any case- or accent-insensitive collation of the name column is not modelled, and neither is any column length limit.
- `Dao.GormCoinDao.Insert`: on an opaque failure the counter is only promised not to go back. Whether the database drew an id before failing is not known.
- `Dao.GormCoinDao.Insert`: on an opaque failure the code returns the half-filled row beside the error. The model returns only the error, and the repository discards that row anyway.
- Errors return no value: the zero-value `domain.Coin{}` that the code returns beside an error is not represented.
- Ids are unbounded integers. The 64-bit range and exhaustion of the auto-increment counter are not modelled.
- `updatedAt >= createdAt` is not stated: the timestamps come from the wall clock, which is not monotone.
- Redis client calls and the JSON codec are treated as an exact store of the coin. A marshalling failure (a year outside 0-9999) is not modelled, and neither is a stored value that fails to unmarshal. Expiry is modelled through the `now` parameter only.
- `Repository.CachedCoinRepository.FindById`: "the DAO is not consulted on a hit" is stated as "the result and the table do not depend on the table's outcome". Call counts are not modelled.
- Concurrency of the increment: operations are sequential, so two concurrent pokes are two successive increments.
- The service (a one-line delegation per operation), the HTTP handlers, request/response shapes, configuration and wiring.

=== FILE: cache.dfy ===
/** The key-value cache of coins: `RedisCoinCache`, over an abstract Redis
    keyspace. JSON encoding is treated as exact, so an entry holds the coin
    itself. */
module Cache {
  import opened Errors
  import opened Domain
  import Decimal

  const KeyPrefix: string := "coin:"

  /** The fixed time to live of every entry: 15 minutes, in milliseconds. */
  const Expiration: int := 15 * 60 * 1000

  /** The key under which the coin with this id is cached: the prefix, then
      the id in decimal, from which the id can be read back. */
  function Key(id: int): (k: string)
    ensures |k| > |KeyPrefix| && k[..|KeyPrefix|] == KeyPrefix
    ensures k[|KeyPrefix|..] == Decimal.IntToString(id)
    ensures Decimal.ParseInt(k[|KeyPrefix|..]) == id
  {
    var k := KeyPrefix + Decimal.IntToString(id);
    assert k[|KeyPrefix|..] == Decimal.IntToString(id);
    Decimal.ParseIntToString(id);
    k
  }

  /** Distinct ids never share a key: the id can be read back from it. */
  lemma KeyInjective(a: int, b: int)
    ensures Key(a) == Key(b) <==> a == b
  {
  }

  /** A stored value: the coin and the instant at which Redis drops it. */
  datatype Entry = Entry(coin: Coin, expiresAt: int)

  /** An entry is served up to and including its expiry instant: Redis
      treats a key as expired only once its clock is past that instant. */
  predicate Live(e: Entry, now: int) {
    now <= e.expiresAt
  }

  /** The keyspace after a successful `Set` of `coin` at `now`. */
  function WithEntry(entries: map<string, Entry>, coin: Coin, now: int): map<string, Entry> {
    entries[Key(coin.id) := Entry(coin, now + Expiration)]
  }

  /** The keyspace after a successful `Del` of `id`. */
  function WithoutEntry(entries: map<string, Entry>, id: int): map<string, Entry> {
    entries - {Key(id)}
  }

  /** What a `Get` of `id` at `now` answers when the client does not fail. */
  function Lookup(entries: map<string, Entry>, id: int, now: int): (r: Result<Coin>)
    ensures r.Err? ==> r.error == KeyNotExist
    ensures r.Ok? ==> Key(id) in entries && r.value == entries[Key(id)].coin
  {
    if Key(id) in entries && Live(entries[Key(id)], now) then Ok(entries[Key(id)].coin)
    else Err(KeyNotExist)
  }

  /** A coin that was set is read back unchanged until it expires, and is
      gone afterwards. */
  lemma LookupAfterSet(entries: map<string, Entry>, coin: Coin, now: int, t: int)
    ensures Lookup(WithEntry(entries, coin, now), coin.id, t)
         == if t <= now + Expiration then Ok(coin) else Err(KeyNotExist)
  {
  }

  /** Setting one coin leaves what every other id reads unchanged. */
  lemma LookupAfterSetOther(entries: map<string, Entry>, coin: Coin, now: int, id: int, t: int)
    requires id != coin.id
    ensures Lookup(WithEntry(entries, coin, now), id, t) == Lookup(entries, id, t)
  {
  }

  /** After a delete the id reads as absent. */
  lemma LookupAfterDel(entries: map<string, Entry>, id: int, t: int)
    ensures Lookup(WithoutEntry(entries, id), id, t) == Err(KeyNotExist)
  {
  }

  /** Deleting one id leaves what every other id reads unchanged. */
  lemma LookupAfterDelOther(entries: map<string, Entry>, deleted: int, id: int, t: int)
    requires id != deleted
    ensures Lookup(WithoutEntry(entries, deleted), id, t) == Lookup(entries, id, t)
  {
  }

  /** `RedisCoinCache`: the client's keyspace and the fixed expiration. */
  class RedisCoinCache {
    var entries: map<string, Entry>
    const expiration: int

    ghost predicate Valid()
      reads this
    {
      expiration == Expiration
    }

    /** `NewRedisCoinCache` over a client whose keyspace is `entries`. */
    constructor (entries: map<string, Entry>)
      ensures Valid() && this.entries == entries
    {
      this.entries := entries;
      expiration := 15 * 60 * 1000;
    }

    /** Stores `coin` under its id's key for `expiration`; a client error is
        returned as is and stores nothing. */
    method Set(coin: Coin, now: int, fault: Option<string>) returns (err: Option<Error>)
      requires Valid()
      modifies this
      ensures fault.Some? ==> err == Some(Backend(fault.value)) && entries == old(entries)
      ensures fault.None? ==> err == None && entries == WithEntry(old(entries), coin, now)
    {
      if fault.Some? {
        return Some(Backend(fault.value));
      }
      entries := entries[Key(coin.id) := Entry(coin, now + expiration)];
      err := None;
    }

    /** Reads the coin cached for `id`: `KeyNotExist` when there is no live
        entry, the client's error as is when the client fails. */
    method Get(id: int, now: int, fault: Option<string>) returns (r: Result<Coin>)
      ensures fault.Some? ==> r == Err(Backend(fault.value))
      ensures fault.None? ==> r == Lookup(entries, id, now)
    {
      if fault.Some? {
        return Err(Backend(fault.value));
      }
      var k := Key(id);
      if k !in entries || entries[k].expiresAt < now {
        return Err(KeyNotExist);
      }
      r := Ok(entries[k].coin);
    }

    /** Removes the entry for `id`; removing an absent key is not an error. */
    method Del(id: int, fault: Option<string>) returns (err: Option<Error>)
      modifies this
      ensures fault.Some? ==> err == Some(Backend(fault.value)) && entries == old(entries)
      ensures fault.None? ==> err == None && entries == WithoutEntry(old(entries), id)
    {
      if fault.Some? {
        return Some(Backend(fault.value));
      }
      entries := entries - {Key(id)};
      err := None;
    }
  }
}

=== FILE: dao.dfy ===
/** The table of coins: `GormCoinDAO` over an abstract MySQL table keyed by
    an auto-increment id. The name is assumed to carry a unique key: that is
    what the mapping of MySQL error 1062 to `ErrDuplicateName` relies on. */
module Dao {
  import opened Errors
  import opened Domain

  /** `sql.NullString`: `valid == false` is SQL NULL. */
  datatype NullString = NullString(s: string, valid: bool)

  /** `dao.Coin`, one row of the table. */
  datatype Row = Row(
    id: int,
    name: string,
    description: NullString,
    createdAt: int,
    updatedAt: int,
    popularityScore: Uint32)

  /** What a nullable column holds after a write: NULL reads back with an
      empty string. */
  function Normalize(d: NullString): (r: NullString)
    ensures r.valid == d.valid
    ensures r.valid ==> r == d
    ensures !r.valid ==> r.s == ""
  {
    if d.valid then d else NullString("", false)
  }

  predicate Normalized(d: NullString) {
    d.valid || d.s == ""
  }

  /** Some row of the table already carries `name`. */
  predicate NameTaken(rows: map<int, Row>, name: string) {
    exists j | j in rows :: rows[j].name == name
  }

  /** The error `Insert` reports, if any: the client's own failure first,
      then a unique-key violation (MySQL error 1062) on the name or on an
      explicitly given id. */
  function InsertError(rows: map<int, Row>, c: Row, fault: Option<string>): (e: Option<Error>)
    ensures e.None? <==> fault.None? && !(c.id != 0 && c.id in rows) && !NameTaken(rows, c.name)
    ensures e.Some? && fault.None? ==> e.value == DuplicateName
    ensures fault.Some? ==> e == Some(Backend(fault.value))
  {
    if fault.Some? then Some(Backend(fault.value))
    else if (c.id != 0 && c.id in rows) || NameTaken(rows, c.name) then Some(DuplicateName)
    else None
  }

  /** The table after a successful `UpdateById`: only the description and
      `updated_at` of the row with that id change, and nothing changes
      when there is no such row. */
  function UpdatedRows(rows: map<int, Row>, e: Row, now: int): (r: map<int, Row>)
    ensures r.Keys == rows.Keys
    ensures forall j :: j in rows && j != e.id ==> r[j] == rows[j]
    ensures e.id in rows ==>
      && r[e.id].description == Normalize(e.description) && r[e.id].updatedAt == now
      && r[e.id].id == rows[e.id].id && r[e.id].name == rows[e.id].name
      && r[e.id].createdAt == rows[e.id].createdAt && r[e.id].popularityScore == rows[e.id].popularityScore
  {
    if e.id in rows then rows[e.id := rows[e.id].(description := Normalize(e.description), updatedAt := now)]
    else rows
  }

  /** The error `IncrPopularityScore` reports, if any: the client's failure,
      `ErrRecordNotFound` when no row was affected, and the out-of-range
      failure of a score already at the `uint32` maximum (the column is
      assumed to have the range of the field). */
  function IncrError(rows: map<int, Row>, id: int, fault: Option<string>): (e: Option<Error>)
    ensures e.None? <==> fault.None? && id in rows && rows[id].popularityScore < MaxUint32
    ensures fault.Some? ==> e == Some(Backend(fault.value))
    ensures fault.None? && id !in rows ==> e == Some(RecordNotFound)
  {
    if fault.Some? then Some(Backend(fault.value))
    else if id !in rows then Some(RecordNotFound)
    else if rows[id].popularityScore == MaxUint32 then Some(Backend(OutOfRange))
    else None
  }

  const OutOfRange: string := "Out of range value for column 'popularity_score'"

  /** The table after a successful `IncrPopularityScore`. */
  function IncrementedRows(rows: map<int, Row>, id: int, now: int): (r: map<int, Row>)
    requires id in rows && rows[id].popularityScore < MaxUint32
    ensures r.Keys == rows.Keys
    ensures forall j :: j in rows && j != id ==> r[j] == rows[j]
    ensures r[id].popularityScore == rows[id].popularityScore + 1
    ensures r[id] == rows[id].(popularityScore := r[id].popularityScore, updatedAt := now)
  {
    rows[id := rows[id].(popularityScore := rows[id].popularityScore + 1, updatedAt := now)]
  }

  /** The table invariant: every row sits under its own id, below the
      auto-increment counter; names are unique; a NULL description reads
      back as "". */
  ghost predicate WellFormed(rows: map<int, Row>, nextId: int) {
    && nextId >= 1
    && (forall id :: id in rows ==> rows[id].id == id && id < nextId && Normalized(rows[id].description))
    && (forall i, j :: i in rows && j in rows && rows[i].name == rows[j].name ==> i == j)
  }

  /** The counter after a successful insert of a row with id `given`: it
      moves past the id it assigned, or past a given id at or above it. */
  function CounterAfterInsert(nextId: int, given: int): (n: int)
    ensures n > nextId || (given != 0 && given < nextId && n == nextId)
    ensures given != 0 ==> n > given
    ensures given == 0 ==> n == nextId + 1
  {
    if given == 0 then nextId + 1
    else if given >= nextId then given + 1
    else nextId
  }

  /** The table behind `GormCoinDAO`: its rows by id and the next value of
      the auto-increment counter. */
  class GormCoinDao {
    var rows: map<int, Row>
    var nextId: int

    ghost predicate Valid()
      reads this
    {
      WellFormed(rows, nextId)
    }

    /** `NewGormCoinDAO` over a table holding `rows`, whose auto-increment
        counter stands at `nextId`. */
    constructor (rows: map<int, Row>, nextId: int)
      requires WellFormed(rows, nextId)
      ensures Valid() && this.rows == rows && this.nextId == nextId
    {
      this.rows := rows;
      this.nextId := nextId;
    }

    /** Stamps both timestamps with `now` and inserts the row. A zero id is
        assigned by the counter; a non-zero id is inserted as given. A
        duplicate on the counter's path still uses up the value it drew, as
        InnoDB does not give auto-increment values back. */
    method Insert(c: Row, now: int, fault: Option<string>) returns (r: Result<Row>)
      requires Valid()
      modifies this
      ensures Valid()
      ensures r.Err? <==> InsertError(old(rows), c, fault).Some?
      ensures r.Err? ==> r.error == InsertError(old(rows), c, fault).value && rows == old(rows)
      ensures r.Err? ==> old(nextId) <= nextId
      ensures r.Err? && fault.None? ==> nextId == if c.id == 0 then old(nextId) + 1 else old(nextId)
      ensures r.Ok? ==>
        && r.value == c.(id := r.value.id, createdAt := now, updatedAt := now)
        && r.value.id !in old(rows)
        && (c.id == 0 ==> r.value.id == old(nextId) && r.value.id > 0)
        && (c.id != 0 ==> r.value.id == c.id)
        && rows == old(rows)[r.value.id := r.value.(description := Normalize(c.description))]
        && nextId == CounterAfterInsert(old(nextId), c.id)
    {
      if fault.Some? {
        return Err(Backend(fault.value));
      }
      var id := if c.id != 0 then c.id else nextId;
      if id in rows || NameTaken(rows, c.name) {
        if c.id == 0 {
          nextId := nextId + 1;
        }
        return Err(DuplicateName);
      }
      var row := c.(id := id, createdAt := now, updatedAt := now);
      rows := rows[id := row.(description := Normalize(row.description))];
      if id >= nextId {
        nextId := id + 1;
      }
      r := Ok(row);
    }

    /** Writes the description and `updated_at` of the row with `e.id`;
        matching no row is not an error. */
    method UpdateById(e: Row, now: int, fault: Option<string>) returns (err: Option<Error>)
      requires Valid()
      modifies this
      ensures Valid() && nextId == old(nextId)
      ensures fault.Some? ==> err == Some(Backend(fault.value)) && rows == old(rows)
      ensures fault.None? ==> err == None && rows == UpdatedRows(old(rows), e, now)
    {
      if fault.Some? {
        return Some(Backend(fault.value));
      }
      if e.id in rows {
        var old_row := rows[e.id];
        rows := rows[e.id := old_row.(description := Normalize(e.description), updatedAt := now)];
      }
      err := None;
    }

    /** The row with `id`, or `ErrRecordNotFound`. */
    method FindById(id: int, fault: Option<string>) returns (r: Result<Row>)
      requires Valid()
      ensures fault.Some? ==> r == Err(Backend(fault.value))
      ensures fault.None? && id in rows ==> r == Ok(rows[id]) && r.value.id == id
      ensures fault.None? && id !in rows ==> r == Err(RecordNotFound)
    {
      if fault.Some? {
        return Err(Backend(fault.value));
      }
      if id !in rows {
        return Err(RecordNotFound);
      }
      r := Ok(rows[id]);
    }

    /** Removes the row with `id`; deleting a missing id is not an error. */
    method DeleteById(id: int, fault: Option<string>) returns (err: Option<Error>)
      requires Valid()
      modifies this
      ensures Valid() && nextId == old(nextId)
      ensures fault.Some? ==> err == Some(Backend(fault.value)) && rows == old(rows)
      ensures fault.None? ==> err == None && rows == old(rows) - {id}
    {
      if fault.Some? {
        return Some(Backend(fault.value));
      }
      rows := rows - {id};
      err := None;
    }

    /** Adds exactly one to the popularity score and refreshes `updated_at`
        in one statement; when no row is affected the table is unchanged and
        `ErrRecordNotFound` is reported. */
    method IncrPopularityScore(id: int, now: int, fault: Option<string>) returns (err: Option<Error>)
      requires Valid()
      modifies this
      ensures Valid() && nextId == old(nextId)
      ensures err == IncrError(old(rows), id, fault)
      ensures err.Some? ==> rows == old(rows)
      ensures err.None? ==> rows == IncrementedRows(old(rows), id, now)
    {
      if fault.Some? {
        return Some(Backend(fault.value));
      }
      if id !in rows {
        return Some(RecordNotFound);
      }
      var row := rows[id];
      if row.popularityScore == MaxUint32 {
        return Some(Backend(OutOfRange));
      }
      rows := rows[id := row.(popularityScore := row.popularityScore + 1, updatedAt := now)];
      err := None;
    }
  }
}

=== FILE: decimal.dfy ===
/** Decimal rendering of integers, as `fmt.Sprintf("%d", n)` writes them,
    with a parser that undoes it: the round trip is what makes the rendering
    injective, and hence the cache keys built from it. */
module Decimal {

  predicate IsDigit(c: char) {
    '0' <= c <= '9'
  }

  predicate AllDigits(s: string) {
    forall i :: 0 <= i < |s| ==> IsDigit(s[i])
  }

  function DigitChar(d: nat): (c: char)
    requires d < 10
    ensures IsDigit(c) && (c as int) - ('0' as int) == d
  {
    (('0' as int) + d) as char
  }

  /** The digits of `n`, most significant first, without leading zeros. */
  function NatToString(n: nat): (s: string)
    ensures |s| >= 1 && AllDigits(s)
    ensures |s| > 1 ==> s[0] != '0'
    decreases n
  {
    if n < 10 then [DigitChar(n)] else NatToString(n / 10) + [DigitChar(n % 10)]
  }

  /** `%d` of a signed integer: a minus sign, then the digits of its magnitude. */
  function IntToString(i: int): (s: string)
    ensures |s| >= 1
    ensures i < 0 <==> s[0] == '-'
    ensures AllDigits(if i < 0 then s[1..] else s)
  {
    if i < 0 then "-" + NatToString(-i) else NatToString(i)
  }

  function ParseNat(s: string): (n: nat)
    requires AllDigits(s)
    decreases |s|
  {
    if s == [] then 0
    else ParseNat(s[..|s| - 1]) * 10 + ((s[|s| - 1] as int) - ('0' as int))
  }

  function ParseInt(s: string): (i: int)
    requires |s| >= 1
    requires AllDigits(if s[0] == '-' then s[1..] else s)
  {
    if s[0] == '-' then -(ParseNat(s[1..]) as int) else ParseNat(s)
  }

  lemma {:induction false} ParseNatToString(n: nat)
    ensures ParseNat(NatToString(n)) == n
    decreases n
  {
    var s := NatToString(n);
    if n >= 10 {
      ParseNatToString(n / 10);
      assert s[..|s| - 1] == NatToString(n / 10);
    }
  }

  /** Parsing gives back the rendered integer. */
  lemma ParseIntToString(i: int)
    ensures ParseInt(IntToString(i)) == i
  {
    var s := IntToString(i);
    if i < 0 {
      assert s[1..] == NatToString(-i);
      ParseNatToString(-i);
    } else {
      ParseNatToString(i);
    }
  }

  /** Distinct integers have distinct renderings. */
  lemma IntToStringInjective(a: int, b: int)
    ensures IntToString(a) == IntToString(b) <==> a == b
  {
    if IntToString(a) == IntToString(b) {
      ParseIntToString(a);
      ParseIntToString(b);
    }
  }
}

=== FILE: domain.dfy ===
/** The domain record handed between the service and the repository. */
module Domain {

  const MaxUint32: int := 0xFFFF_FFFF

  /** Go's `uint32`. */
  type Uint32 = x: int | 0 <= x <= MaxUint32

  /** `domain.Coin`. The two instants are kept as Unix milliseconds, which is
      all the precision that survives the table's `int64` columns. */
  datatype Coin = Coin(
    id: int,
    name: string,
    description: string,
    createdAt: int,
    updatedAt: int,
    popularityScore: Uint32)
}

=== FILE: errors.dfy ===
/** The error values the persistence layer passes around, and the two
    wrappers used for Go's `(value, error)` and bare `error` returns. */
module Errors {

  datatype Option<+T> = None | Some(value: T)

  /** `Ok(v)` stands for `(v, nil)`, `Err(e)` for `(zero value, e)`. */
  datatype Result<+T> = Ok(value: T) | Err(error: Error)

  /** The sentinel errors are distinct constructors; every other error a
      backend can report (a lost connection, a timeout, a MySQL error other
      than 1062) is an opaque `Backend` value that is only ever passed on. */
  datatype Error =
    | DuplicateName           // dao.ErrDuplicateName
    | RecordNotFound          // gorm.ErrRecordNotFound
    | KeyNotExist             // redis.Nil
    | Backend(reason: string) // any other database or cache client error
}

=== FILE: repository.dfy ===
/** The cache-aside repository: `CachedCoinRepository` reads the cache first
    and falls back to the table, repopulating the cache after a table read;
    it writes the table first and then invalidates the cache. Cache errors
    never reach the caller; table errors reach it unchanged.

    Each background goroutine is modelled as a step that runs before the
    call returns, whose outcome is the parameter `bgFault`; whatever it
    reports is discarded. */
module Repository {
  import opened Errors
  import opened Domain
  import Dao
  import Cache

  /** The repository's sentinels are the table's own values. */
  const ErrDuplicateName: Error := DuplicateName
  const ErrNotFound: Error := RecordNotFound

  /** The aliases are the table's sentinels, two distinct values: a missing
      row is reported as `ErrNotFound` and a taken name as
      `ErrDuplicateName`, and neither is confused with a cache miss. */
  lemma SentinelAliases(rows: map<int, Dao.Row>, c: Dao.Row, id: int)
    ensures ErrNotFound == RecordNotFound && ErrDuplicateName == DuplicateName
    ensures ErrNotFound != ErrDuplicateName && ErrNotFound != KeyNotExist && !ErrNotFound.Backend?
    ensures id !in rows ==> Dao.IncrError(rows, id, None) == Some(ErrNotFound)
    ensures Dao.NameTaken(rows, c.name) ==> Dao.InsertError(rows, c, None) == Some(ErrDuplicateName)
  {
  }

  /** The row written for a domain coin: id, name and description only; an
      empty description is written as NULL. */
  function ToEntity(c: Coin): (r: Dao.Row)
    ensures r.id == c.id && r.name == c.name && r.description.s == c.description
    ensures r.description.valid <==> c.description != ""
    ensures Dao.Normalized(r.description)
    ensures r.createdAt == 0 && r.updatedAt == 0 && r.popularityScore == 0
  {
    Dao.Row(c.id, c.name, Dao.NullString(c.description, c.description != ""), 0, 0, 0)
  }

  /** The domain coin read from a row: NULL reads as "", timestamps keep
      their milliseconds. */
  function ToDomain(r: Dao.Row): (c: Coin)
    ensures c.id == r.id && c.name == r.name && c.popularityScore == r.popularityScore
    ensures c.createdAt == r.createdAt && c.updatedAt == r.updatedAt
    ensures Dao.Normalized(r.description) && !r.description.valid ==> c.description == ""
    ensures r.description.valid ==> c.description == r.description.s
  {
    Coin(r.id, r.name, r.description.s, r.createdAt, r.updatedAt, r.popularityScore)
  }

  /** Writing a coin and reading it back keeps its id, name and description
      and nothing else. */
  lemma DomainEntityRoundTrip(c: Coin)
    ensures ToDomain(ToEntity(c)) == c.(createdAt := 0, updatedAt := 0, popularityScore := 0)
  {
  }

  /** Reading a row and writing it back keeps its description exactly when
      NULL and "" are not confused: a non-NULL empty description comes back
      as NULL. */
  lemma EntityDomainRoundTrip(r: Dao.Row)
    requires Dao.Normalized(r.description)
    ensures ToEntity(ToDomain(r)).description == r.description
        <==> (r.description.valid <==> r.description.s != "")
  {
  }

  /** The cache agrees with the table: an entry under an id's key holds the
      domain view of that id's row, and an id with no row has no entry. */
  ghost predicate Coherent(rows: map<int, Dao.Row>, entries: map<string, Cache.Entry>) {
    forall id :: Cache.Key(id) in entries ==> id in rows && entries[Cache.Key(id)].coin == ToDomain(rows[id])
  }

  /** `rows'` has the same rows as `rows` at every id other than `id`. */
  ghost predicate AgreeExcept(rows: map<int, Dao.Row>, rows': map<int, Dao.Row>, id: int) {
    && (forall j :: j != id && j in rows ==> j in rows' && rows'[j] == rows[j])
    && (forall j :: j != id && j in rows' ==> j in rows)
  }

  /** Under coherence a live entry is what the table would answer. */
  lemma CoherentHit(rows: map<int, Dao.Row>, entries: map<string, Cache.Entry>, id: int, now: int)
    requires Coherent(rows, entries)
    requires Cache.Lookup(entries, id, now).Ok?
    ensures id in rows && Cache.Lookup(entries, id, now).value == ToDomain(rows[id])
  {
  }

  /** A new row needs no cache action: no entry can exist for its id. */
  lemma CoherentAfterInsert(rows: map<int, Dao.Row>, entries: map<string, Cache.Entry>, row: Dao.Row)
    requires Coherent(rows, entries)
    requires row.id !in rows
    ensures Coherent(rows[row.id := row], entries)
  {
  }

  /** Changing or removing one row and deleting that id's entry keeps the
      cache coherent. */
  lemma CoherentAfterInvalidate(rows: map<int, Dao.Row>, rows': map<int, Dao.Row>,
                                entries: map<string, Cache.Entry>, id: int)
    requires Coherent(rows, entries)
    requires AgreeExcept(rows, rows', id)
    ensures Coherent(rows', Cache.WithoutEntry(entries, id))
  {
  }

  /** Caching the domain view of a row keeps the cache coherent. */
  lemma CoherentAfterPopulate(rows: map<int, Dao.Row>, entries: map<string, Cache.Entry>, id: int, now: int)
    requires Coherent(rows, entries)
    requires id in rows && rows[id].id == id
    ensures Coherent(rows, Cache.WithEntry(entries, ToDomain(rows[id]), now))
  {
  }

  /** When the entry for an updated row is not deleted, it outlives the row
      it was read from: the cache is no longer coherent and serves a stale
      coin until the entry expires. That happens when the background delete
      fails, and also when the table applied the update but the call still
      reported an error (a deadline hit after the write), since then no
      delete is attempted at all. */
  lemma StaleAfterFailedInvalidate(rows: map<int, Dao.Row>, entries: map<string, Cache.Entry>, e: Dao.Row, now: int)
    requires Coherent(rows, entries)
    requires e.id in rows && Cache.Key(e.id) in entries
    requires now != rows[e.id].updatedAt
    ensures !Coherent(Dao.UpdatedRows(rows, e, now), entries)
  {
    var rows' := Dao.UpdatedRows(rows, e, now);
    assert entries[Cache.Key(e.id)].coin.updatedAt != ToDomain(rows'[e.id]).updatedAt;
  }

  /** The keyspace after the background delete of `id`: gone when the task
      succeeds, untouched when it fails. */
  function Invalidated(entries: map<string, Cache.Entry>, id: int, bgFault: Option<string>): map<string, Cache.Entry> {
    if bgFault.None? then Cache.WithoutEntry(entries, id) else entries
  }

  /** The keyspace after the background set of `coin` at `now`. */
  function Populated(entries: map<string, Cache.Entry>, coin: Coin, now: int, bgFault: Option<string>): map<string, Cache.Entry> {
    if bgFault.None? then Cache.WithEntry(entries, coin, now) else entries
  }

  /** A `Get` that the cache answers with a coin. */
  predicate Hit(entries: map<string, Cache.Entry>, id: int, now: int, cacheFault: Option<string>) {
    cacheFault.None? && Cache.Lookup(entries, id, now).Ok?
  }

  /** `CachedCoinRepository` over one table and one cache. */
  class CachedCoinRepository {
    const dao: Dao.GormCoinDao
    const cache: Cache.RedisCoinCache

    ghost predicate Valid()
      reads this, dao, cache
    {
      dao.Valid() && cache.Valid()
    }

    /** `NewCachedCoinRepository`. */
    constructor (dao: Dao.GormCoinDao, cache: Cache.RedisCoinCache)
      requires dao.Valid() && cache.Valid()
      ensures Valid() && this.dao == dao && this.cache == cache
    {
      this.dao := dao;
      this.cache := cache;
    }

    /** Inserts the coin and returns the stored coin; the table's error is
        returned as is; the cache is not touched. */
    method Create(coin: Coin, now: int, dbFault: Option<string>) returns (r: Result<Coin>)
      requires Valid()
      modifies dao
      ensures Valid()
      ensures r.Err? <==> Dao.InsertError(old(dao.rows), ToEntity(coin), dbFault).Some?
      ensures r.Err? ==>
        && r.error == Dao.InsertError(old(dao.rows), ToEntity(coin), dbFault).value
        && dao.rows == old(dao.rows) && old(dao.nextId) <= dao.nextId
        && (dbFault.None? ==> dao.nextId == if coin.id == 0 then old(dao.nextId) + 1 else old(dao.nextId))
      ensures r.Ok? ==>
        && r.value.id !in old(dao.rows) && r.value.id in dao.rows
        && dao.rows == old(dao.rows)[r.value.id := dao.rows[r.value.id]]
        && dao.rows[r.value.id] == ToEntity(coin).(id := r.value.id, createdAt := now, updatedAt := now)
        && r.value == ToDomain(dao.rows[r.value.id])
        && r.value.name == coin.name && r.value.description == coin.description
        && r.value.createdAt == now && r.value.updatedAt == now && r.value.popularityScore == 0
        && (coin.id == 0 ==> r.value.id == old(dao.nextId) && r.value.id > 0)
        && dao.nextId == Dao.CounterAfterInsert(old(dao.nextId), coin.id)
      ensures Coherent(old(dao.rows), cache.entries) ==> Coherent(dao.rows, cache.entries)
    {
      var inserted := dao.Insert(ToEntity(coin), now, dbFault);
      if inserted.Err? {
        return Err(inserted.error);
      }
      if Coherent(old(dao.rows), cache.entries) {
        CoherentAfterInsert(old(dao.rows), cache.entries, dao.rows[inserted.value.id]);
      }
      r := Ok(ToDomain(inserted.value));
    }

    /** Writes the description; on success the cached copy is deleted in the
        background and the result is nil whatever that delete does. */
    method Update(coin: Coin, now: int, dbFault: Option<string>, bgFault: Option<string>) returns (err: Option<Error>)
      requires Valid()
      modifies dao, cache
      ensures Valid() && dao.nextId == old(dao.nextId)
      ensures dbFault.Some? ==>
        && err == Some(Backend(dbFault.value))
        && dao.rows == old(dao.rows) && cache.entries == old(cache.entries)
      ensures dbFault.None? ==>
        && err == None
        && dao.rows == Dao.UpdatedRows(old(dao.rows), ToEntity(coin), now)
        && cache.entries == Invalidated(old(cache.entries), coin.id, bgFault)
      ensures bgFault.None? && Coherent(old(dao.rows), old(cache.entries)) ==> Coherent(dao.rows, cache.entries)
    {
      err := dao.UpdateById(ToEntity(coin), now, dbFault);
      if err.Some? {
        return;
      }
      var _ := cache.Del(coin.id, bgFault);
      if bgFault.None? && Coherent(old(dao.rows), old(cache.entries)) {
        CoherentAfterInvalidate(old(dao.rows), dao.rows, old(cache.entries), coin.id);
      }
    }

    /** Reads through the cache: a live entry answers the call without the
        table; any cache error counts as a miss and falls through to the
        table, whose row is then cached in the background and whose error is
        returned as is. */
    method FindById(id: int, now: int, cacheFault: Option<string>, dbFault: Option<string>, bgFault: Option<string>)
      returns (r: Result<Coin>)
      requires Valid()
      modifies cache
      ensures Valid()
      ensures Hit(old(cache.entries), id, now, cacheFault) ==>
        r == Cache.Lookup(old(cache.entries), id, now) && cache.entries == old(cache.entries)
      ensures !Hit(old(cache.entries), id, now, cacheFault) && dbFault.Some? ==>
        r == Err(Backend(dbFault.value)) && cache.entries == old(cache.entries)
      ensures !Hit(old(cache.entries), id, now, cacheFault) && dbFault.None? && id !in dao.rows ==>
        r == Err(ErrNotFound) && cache.entries == old(cache.entries)
      ensures !Hit(old(cache.entries), id, now, cacheFault) && dbFault.None? && id in dao.rows ==>
        r == Ok(ToDomain(dao.rows[id])) && cache.entries == Populated(old(cache.entries), r.value, now, bgFault)
      ensures Coherent(dao.rows, old(cache.entries)) ==> Coherent(dao.rows, cache.entries)
      ensures Coherent(dao.rows, old(cache.entries)) && dbFault.None? ==>
        (r.Ok? <==> id in dao.rows) && (r.Ok? ==> r.value == ToDomain(dao.rows[id]))
    {
      var cached := cache.Get(id, now, cacheFault);
      if cached.Ok? {
        if Coherent(dao.rows, cache.entries) {
          CoherentHit(dao.rows, cache.entries, id, now);
        }
        return cached;
      }
      var found := dao.FindById(id, dbFault);
      if found.Err? {
        return Err(found.error);
      }
      var coin := ToDomain(found.value);
      var _ := cache.Set(coin, now, bgFault);
      if Coherent(dao.rows, old(cache.entries)) && bgFault.None? {
        CoherentAfterPopulate(dao.rows, old(cache.entries), id, now);
      }
      r := Ok(coin);
    }

    /** Deletes the row; on success the cached copy is deleted in the
        background and the result is nil whatever that delete does. */
    method DeleteById(id: int, dbFault: Option<string>, bgFault: Option<string>) returns (err: Option<Error>)
      requires Valid()
      modifies dao, cache
      ensures Valid() && dao.nextId == old(dao.nextId)
      ensures dbFault.Some? ==>
        && err == Some(Backend(dbFault.value))
        && dao.rows == old(dao.rows) && cache.entries == old(cache.entries)
      ensures dbFault.None? ==>
        && err == None
        && dao.rows == old(dao.rows) - {id}
        && cache.entries == Invalidated(old(cache.entries), id, bgFault)
      ensures bgFault.None? && Coherent(old(dao.rows), old(cache.entries)) ==> Coherent(dao.rows, cache.entries)
    {
      err := dao.DeleteById(id, dbFault);
      if err.Some? {
        return;
      }
      var _ := cache.Del(id, bgFault);
      if bgFault.None? && Coherent(old(dao.rows), old(cache.entries)) {
        CoherentAfterInvalidate(old(dao.rows), dao.rows, old(cache.entries), id);
      }
    }

    /** Adds one to the popularity score; the table's error, including
        `ErrNotFound` for a missing id, is returned as is with no cache
        action; on success the cached copy is deleted in the background. */
    method IncrPopularityScore(id: int, now: int, dbFault: Option<string>, bgFault: Option<string>)
      returns (err: Option<Error>)
      requires Valid()
      modifies dao, cache
      ensures Valid() && dao.nextId == old(dao.nextId)
      ensures err == Dao.IncrError(old(dao.rows), id, dbFault)
      ensures err.Some? ==> dao.rows == old(dao.rows) && cache.entries == old(cache.entries)
      ensures err.None? ==>
        && dao.rows == Dao.IncrementedRows(old(dao.rows), id, now)
        && cache.entries == Invalidated(old(cache.entries), id, bgFault)
      ensures bgFault.None? && Coherent(old(dao.rows), old(cache.entries)) ==> Coherent(dao.rows, cache.entries)
    {
      err := dao.IncrPopularityScore(id, now, dbFault);
      if err.Some? {
        return;
      }
      var _ := cache.Del(id, bgFault);
      if bgFault.None? && Coherent(old(dao.rows), old(cache.entries)) {
        CoherentAfterInvalidate(old(dao.rows), dao.rows, old(cache.entries), id);
      }
    }
  }
}

=== FILE: scenario.dfy ===
/** A client of the repository: a sample coin life cycle, derived from the
    contracts alone. */
module Scenario {
  import opened Errors
  import opened Domain
  import Dao
  import Cache
  import Repository

  function Doge(description: string, updatedAt: int, score: Uint32): Dao.Row {
    Dao.Row(1, "doge", Dao.NullString(description, true), 1000, updatedAt, score)
  }

  /** Create "doge" in an empty table: it gets id 1, score 0 and equal
      timestamps. */
  method CreateDoge() returns (repo: Repository.CachedCoinRepository)
    ensures fresh(repo) && fresh(repo.dao) && fresh(repo.cache) && repo.Valid()
    ensures repo.dao.rows == map[1 := Doge("wow", 1000, 0)] && repo.cache.entries == map[]
  {
    var table := new Dao.GormCoinDao(map[], 1);
    var cache := new Cache.RedisCoinCache(map[]);
    repo := new Repository.CachedCoinRepository(table, cache);
    assert !Dao.NameTaken(map[], "doge");
    var created := repo.Create(Coin(0, "doge", "wow", 0, 0, 0), 1000, None);
    assert created == Ok(Coin(1, "doge", "wow", 1000, 1000, 0));
    assert table.rows == map[1 := Doge("wow", 1000, 0)];
  }

  /** Three pokes add exactly three; a poke of a missing id is not found. */
  method PokeThrice(repo: Repository.CachedCoinRepository)
    requires repo.Valid()
    requires repo.dao.rows == map[1 := Doge("wow", 1000, 0)] && repo.cache.entries == map[]
    modifies repo.dao, repo.cache
    ensures repo.Valid()
    ensures repo.dao.rows == map[1 := Doge("wow", 4000, 3)] && repo.cache.entries == map[]
  {
    var poked := repo.IncrPopularityScore(1, 2000, None, None);
    assert poked == None;
    assert repo.dao.rows == map[1 := Doge("wow", 2000, 1)];
    poked := repo.IncrPopularityScore(1, 3000, None, None);
    assert poked == None;
    assert repo.dao.rows == map[1 := Doge("wow", 3000, 2)];
    poked := repo.IncrPopularityScore(1, 4000, None, None);
    assert poked == None;
    assert repo.dao.rows == map[1 := Doge("wow", 4000, 3)];
    poked := repo.IncrPopularityScore(2, 4500, None, None);
    assert poked == Some(Repository.ErrNotFound);
  }

  /** A read through the empty cache sees the three pokes; after an update
      the next read sees the new description, not the copy cached by the
      first read. */
  method ReadUpdateRead(repo: Repository.CachedCoinRepository)
    requires repo.Valid()
    requires repo.dao.rows == map[1 := Doge("wow", 4000, 3)] && repo.cache.entries == map[]
    modifies repo.dao, repo.cache
  {
    var found := repo.FindById(1, 5000, None, None, None);
    assert found == Ok(Coin(1, "doge", "wow", 1000, 4000, 3));
    var updated := repo.Update(Coin(1, "doge", "much wow", 0, 0, 0), 6000, None, None);
    assert updated == None;
    assert repo.dao.rows == map[1 := Doge("much wow", 6000, 3)];
    assert repo.cache.entries == map[];
    found := repo.FindById(1, 7000, None, None, None);
    assert found == Ok(Coin(1, "doge", "much wow", 1000, 6000, 3));
  }

  method CreatePokeUpdate() {
    var repo := CreateDoge();
    PokeThrice(repo);
    ReadUpdateRead(repo);
  }
}
